=== FILE: README.md ===
# Session-lifecycle bookkeeping of a WhatsApp multi-device pairing server

The server pairs client devices with WhatsApp accounts through pairing codes,
keeps one "final" socket per paired phone number, reconnects logged-in users at
startup and subscribes to the presence of numbers each user monitors. This
project models its bookkeeping as one abstract state and proves properties of
it:

- the `users` table (a map keyed by `deviceId`), with the UNIQUE `phoneNumber`
  constraint, normalised numbers and "a logged-in row has a non-empty
  `lastKnownJid`" as the invariant `Users.Valid`;
- the `monitored_numbers` table, a map keyed by `(ownerUserJid, monitoredJid)`;
- the in-memory registry `activeUserSessions`, refined with the set of final
  sockets still live (`SessionRegistry.Registry`), so that "one live socket per
  number" can be stated;
- the credential directories `baileys_auth_info_<digits>`, as a map from number
  to whether the credentials saved there are registered;
- the pairing attempts in flight, each with the state of its connection
  handler (`finalSessionLogicInitiated`, `creds.registered`).

Every socket event and route is a pure function from state to state
(`Orchestrator.World`); a route also returns its reply (`ControlApi.Response`).
The startup loop is a method that visits the stored rows in an unspecified
order, picking the next one nondeterministically, since the server processes
them in whatever order the store lists them. What the server learns from the
platform is an input: the pairing code, socket user ids and open websockets (`Probe`), the
`onWhatsApp` answer, whether each `presenceSubscribe` call succeeds, and the
status code of a close. `jidNormalizedUser` is the uninterpreted function
parameter `norm`.

Modules, one file each: `Wrappers` (nullable values), `Phone` (normalisation),
`Jids`, `Users`, `Monitors`, `Presence` (the reconcile pass), `SessionRegistry`,
`Pairing` (the pairing socket's state machine), `Orchestrator` (socket
handlers), `Startup` (recovery in `main`) and `ControlApi` (route decisions).

Two modelling choices follow the code:

- The handoff from the pairing socket to the final session is taken only on an
  `open` or `close` update of the pairing socket after `creds.registered` has
  become true; a `creds.update` only saves the credentials. A registration alone
  therefore starts nothing (`Pairing.HandoffIff`).
- Replacing a final session ends the old socket, which delivers that socket's
  `close` update (not a logout) before the new socket is registered, so the
  model runs the old socket's close handler and then installs the new one.

## Model

| member | source | states |
|---|---|---|
| Phone.Normalize | example.ts:145 | the cleaned number holds only ASCII digits and is no longer than the input |
| Phone.DigitsAreFixed | example.ts:145 | a number that is already digits only is left unchanged |
| Phone.Idempotent | example.ts:545 | cleaning an already cleaned number changes nothing, so the route and the store agree on the key |
| Phone.FixedIffDigits | example.ts:145 | cleaning leaves a string unchanged exactly when it is all digits |
| Phone.EmptyIffNoDigit | example.ts:545-548 | the pairing route's "valid phone number required" rejection happens exactly for input without any digit |
| Phone.Append | example.ts:59 | cleaning works character by character: it distributes over concatenation |
| Phone.SameDigits | example.ts:182 | every digit of the input survives cleaning with its multiplicity, and nothing else does |
| Jids.UserPart | example.ts:688 | the user part contains no `@`, is a prefix of the identity, and is followed by `@` when shorter |
| Jids.UserPartOfJoin | example.ts:688 | splitting `user@server` at the first `@` gives `user` back |
| Users.UpsertForPairing | example.ts:142-177 | fails exactly when another device holds the cleaned number; otherwise the device has one row, with the new number, logged out and without identity, other rows are unchanged, and the old number is reported exactly when it was set and differs |
| Users.UpsertKeepsValid | example.ts:108-116 | a successful upsert keeps numbers unique and clean and identities tied to the login flag |
| Users.UpdateLoginStatus | example.ts:179-197 | rows holding the cleaned number get the flag and `jid || null`; all other rows, and the key set, are unchanged; without a matching row nothing changes |
| Users.UpdateRewritesOneRow | example.ts:182-186 | under the UNIQUE constraint the update rewrites exactly the one row that holds the number |
| Users.UpdateKeepsValid | example.ts:182-186 | an update whose flag agrees with the identity keeps the table valid |
| Users.UpdateIdempotent | example.ts:182-186 | repeating the same update changes nothing more |
| Users.SignOut | example.ts:397-400 | the row holding the number ends logged out without identity; other rows are unchanged |
| Users.SignOutKeepsValid | example.ts:397-400 | the close handler's sign-out keeps the table valid |
| Monitors.AddMonitored | example.ts:247-266 | the pair has one row afterwards, its flag is the argument, a missing display name keeps the stored one (`COALESCE`), and other rows are unchanged |
| Monitors.AddMonitoredRowCount | example.ts:251-266 | the row count grows by one exactly when the pair was not yet monitored |
| Monitors.AddMonitoredIdempotent | example.ts:251-258 | adding the same monitor twice equals adding it once |
| Monitors.UpdateSubscription | example.ts:277-285 | only the flag of the matching row changes |
| Presence.Reconcile | example.ts:314-336 | an unsubscribed row of the owner ends subscribed exactly when its subscribe call succeeds; subscribed rows, rows of other owners and rows without a target are untouched |
| Presence.ReconcileIdempotent | example.ts:314-336 | a second pass with the same outcomes changes nothing |
| Presence.ReconcilePass | example.ts:314-336 | the row-by-row loop over the owner's listed rows computes the whole-table effect `Reconcile` |
| SessionRegistry.OneLivePerPhone | example.ts:372-377 | in a valid registry no number has two live final sockets |
| SessionRegistry.Drop | example.ts:556-561 | the number's entry and its socket are gone; the registry stays valid |
| SessionRegistry.Install | example.ts:372-377 | the number now names the new socket, the socket it named before is reported and no longer live, and validity is kept |
| SessionRegistry.Closed | example.ts:395 | the closed socket is no longer live and its number's entry is deleted; validity is kept |
| Pairing.Step | example.ts:457-494 | the handler hands off exactly on an open or close update while registered and not yet initiated, abandons exactly on a close before registration, and waits exactly on an open before registration |
| Pairing.AtMostOnce | example.ts:466-468 | along any sequence of updates the final session is started at most once, and never once initiated |
| Pairing.HandoffIffFrom | example.ts:466-492 | from a state not yet initiated, a handoff happens exactly when a connection update arrives while or after the credentials are registered |
| Pairing.HandoffIff | example.ts:455-494 | from a fresh attempt the final session starts exactly when an open or close update follows the registration |
| Pairing.NoRegistrationNoHandoff | example.ts:489-492 | opens and closes without registration start nothing and leave the state as it was |
| Orchestrator.RemoveAuthDir | example.ts:58-67 | exactly the cleaned number's directory is removed; the others are kept as they were |
| Orchestrator.VerifyAndEstablish | example.ts:338-377 | without registered credentials the number's rows are logged out, keeping their number, and nothing else changes; with them the number names a new live socket, and the rows are signed out by the replaced socket's close when there was one and otherwise unchanged |
| Orchestrator.OnFinalOpen | example.ts:386-393 | with a user id the number's rows are logged in under that id and the owner's monitors are reconciled; without one nothing changes; only those rows change |
| Orchestrator.OnFinalClose | example.ts:394-406 | the number's entry and socket are gone, its rows are signed out, and its credentials are removed on a logout status only; every other number's registry entry survives |
| Orchestrator.BeginPairing | example.ts:422-511 | the number's credentials are fresh and unregistered; with a code the attempt is in flight under the next handle, without one the request fails and no attempt remains |
| Orchestrator.OnPairingEvent | example.ts:455-495 | a registration is saved to disk; the attempt ends on a close or a handoff; sessions change only through a handoff; an open before registration changes nothing, so the attempt keeps waiting; a handoff is exactly the verify-and-establish step on the state without the attempt; an event that is not a handoff leaves the users, the registry and the other credentials alone, and no event touches the monitors |
| Orchestrator.CloseKeepsInv | example.ts:394-406 | a final close keeps the invariant |
| Orchestrator.VerifyKeepsInv | example.ts:338-377 | establishing a final session keeps the invariant |
| Orchestrator.OpenKeepsInv | example.ts:386-393 | a final open keeps the invariant |
| Orchestrator.BeginKeepsInv | example.ts:422-436 | starting a pairing attempt keeps the invariant |
| Orchestrator.PairingEventKeepsInv | example.ts:455-495 | every update of a pairing socket keeps the invariant |
| Orchestrator.CloseDeletesCredsIffLoggedOut | example.ts:402-405 | a final close removes the number's credentials exactly when the status is `loggedOut`, and no other number's |
| Orchestrator.CloseLogsOut | example.ts:395-401 | after a final close the registry forgets the number and no row holding it is logged in |
| Orchestrator.EstablishLeavesOneLiveSocket | example.ts:372-377 | after installing, the new socket is the only live one for the number |
| Orchestrator.RegistrationSaved | example.ts:455-457 | a registration before any connection update is saved and remembered by the attempt, and nothing else changes |
| Orchestrator.OpenAfterRegistrationInstalls | example.ts:466-478 | the pairing socket opening after registration is the verify-and-establish step for its number: it installs the final session under the next handle, ends the attempt, and leaves logged-out rows alone |
| Orchestrator.CloseAfterRegistrationInstalls | example.ts:485-490 | the pairing socket closing after registration and before any handoff starts the final session under the next handle, ends the attempt, and leaves logged-out rows alone |
| Orchestrator.HandoffEndsAttempt | example.ts:467-468 | after a handoff the attempt is gone, so the same update cannot start a second session |
| Startup.PendingPhoneNotReconnected | example.ts:111 | a row not yet processed shares its number with no reconnected row |
| Startup.RecoverUserEffect | example.ts:764-786 | recovering one row either reconnects it, registering its number under a new socket and leaving the table alone, or marks exactly that row logged out; rows not logged in are skipped |
| Startup.ReconnectedPhonesAdd | example.ts:764-786 | processing one more row adds its number to the reconnected ones exactly when it reconnects |
| Startup.StartupStep | example.ts:764-790 | one loop iteration keeps the loop's progress description |
| Startup.ProgressStep | example.ts:764-790 | any state related to the previous one as recovering one pending row relates them keeps the loop's progress description for the remaining rows |
| Startup.Startup | example.ts:760-791 | after startup every logged-in row whose credentials are present, registered and load without error is reconnected, every other logged-in row is logged out, other rows are unchanged, and the registry holds exactly the reconnected numbers |
| ControlApi.SwitchDevice | example.ts:553-561 | the old number's credentials and registry entry are gone; every other directory keeps its registered flag, every other entry its socket, and the tables are unchanged |
| ControlApi.RequestPairingCode | example.ts:534-584 | missing fields and digit-less numbers are rejected unchanged; a number held by another device is a conflict, unchanged; otherwise the device's one row holds the cleaned number logged out and fresh credentials exist; the reply is a pairing code exactly when the platform gave one, which starts an attempt under the next handle, and a failure leaves no attempt behind; the monitors, the other numbers' credentials and every registry entry except that of a different number the device held before are kept |
| ControlApi.RequestPairingCodeKeepsInv | example.ts:534-584 | the pairing route keeps the invariant |
| ControlApi.DeviceSwitchCleansOldNumber | example.ts:553-561 | re-pairing a device under a new number removes the old number's credentials and registry entry, and no other device holds the new number |
| ControlApi.CheckSessionByDevice | example.ts:621-668 | reports logged in exactly when the row is logged in with a number and identity and that number's socket is open under that identity; and a row the store has as logged in without such a session is always corrected by the status update for its number; only a row logged in with a number and identity is ever changed, with a not-logged-in reply, and nothing else changes |
| ControlApi.CheckSessionCorrectsOneRow | example.ts:655-661 | a logged-in row without a live session is logged out, the correction touches the device's own row only, and the invariant is kept |
| ControlApi.MonitorNumber | example.ts:679-717 | each rejection (missing fields, inactive owner, contact not found, non-user target, failed subscribe) happens exactly under its condition and changes nothing; when every check passes and the subscription succeeds, the route succeeds and upserts the pair as subscribed, keeping a stored display name when none is given |
| ControlApi.MonitorNumberIdempotent | example.ts:679-717 | monitoring the same contact twice leaves the state of monitoring it once |
| ControlApi.PairingRoundTrip | example.ts:534-584 | request, registration, the pairing socket's open and the final socket's open with an identity leave the device's row logged in under the number and identity, the number registered, and the invariant kept |
| ControlApi.PairingHead | example.ts:534-584 | a request for a free number hands out the code, and the registration that follows is saved with the attempt waiting for a connection update |
| ControlApi.PairingTail | example.ts:466-478 | the pairing socket's open after registration followed by the final open logs the device in under the new socket |
| ControlApi.OpenFacts | example.ts:386-389 | a final open with an identity logs in the row holding the socket's number and keeps the invariant |

## Left out

- SQLite itself, the schema DDL, `fetchAllDataForDebug`, `Date.now` timestamps and the `lastSeen`/`lastKnownPresence` columns, which the server never writes.
- "Database not initialized" errors and failing SQL statements: every table operation succeeds in the model.
- The UNIQUE-constraint catch of `addMonitoredNumber` (example.ts:267-271): the model's upsert is atomic, so the constraint cannot fire.
- Sockets, `makeWASocket`, `useMultiFileAuthState`, `logout` and `end` are not modelled as objects: sockets are handles, and their effects are the events above.
- `onWhatsApp`, `presenceSubscribe`, the socket's user id and `ws.isOpen` are inputs; `jidNormalizedUser` is the function parameter `norm`.
- The model takes socket user ids as given. Whether `sock.user.id` ever equals a `jidNormalizedUser` value depends on the library's identity format, which is not part of this model.
- Startup.Startup: models startup failures as the input set `failing`; a failing number has thrown before any socket was created. The server does not await these calls and runs them concurrently; the model processes rows one after another.
- Orchestrator.OnFinalClose: the old socket's close during a replacement is applied at once. In the server its sign-out is asynchronous.
- Filesystem errors of `fs.rm`/`mkdirSync` and write failures of `saveCreds`.
- `getBaileysVersion`, Express routing, CORS, JSON bodies, HTTP status codes (kept as comments on `ControlApi.Reply`), logging, the `delay` timers and the `presence.update` handler, which only logs.
- The thrown-error paths of the monitor route: a throwing `onWhatsApp` (a 500 reply, no state change) and a failing `addMonitoredNumber` after the subscription; and a throwing `logout` in the device switch.
- The `/check-login-status`, `/status` and `/monitored-numbers` routes: they only read state.
- Orchestrator.VerifyAndEstablish: its claims about the registry's new entry and about the rows signed out by the replaced socket hold only for a valid registry. The transition itself is defined for any state.
- ControlApi.RequestPairingCode: states the device-switch cleanup of the old number's credentials only in `ControlApi.DeviceSwitchCleansOldNumber`, which assumes the invariant (stored numbers are clean).

=== FILE: control_api.dfy ===
/**
 * The decisions the HTTP routes take (example.ts:534-717), without Express:
 * each route is a function from the state and the request to the new state
 * and a reply. What the route learns from live sockets and from the platform
 * is passed in: socket identities in a `Probe`, the `onWhatsApp` answer as a
 * list of contacts, the outcome of `presenceSubscribe` as a flag, the pairing
 * code as an optional string, and `jidNormalizedUser` as the function `norm`.
 */
module ControlApi {
  import opened Wrappers
  import opened Phone
  import opened Jids
  import opened Users
  import opened Monitors
  import opened SessionRegistry
  import opened Pairing
  import opened Orchestrator

  /** A route's answer; the HTTP status the route sends is noted beside each. */
  datatype Reply =
    | BadRequest                                               // 400: a field is missing or unusable
    | Conflict                                                 // 500: number linked to another device
    | PairingFailed                                            // 500: no pairing code obtained
    | PairingCode(code: string, phone: PhoneNumber)            // 200
    | NotLoggedIn                                              // 200, isLoggedIn: false
    | LoggedIn(jid: Jid, phone: PhoneNumber, device: DeviceId) // 200, isLoggedIn: true
    | OwnerInactive                                            // 403
    | ContactNotFound                                          // 404
    | InvalidTarget                                            // 400: not an individual user
    | SubscribeFailed                                          // 500
    | Monitoring                                               // 200

  /** The state after a route, and what it answered. */
  datatype Response = Response(world: World, reply: Reply)

  /** What a route sees of the sockets: `sock.user?.id`, and which websockets are open. */
  datatype Probe = Probe(userIds: map<Handle, Jid>, open: set<Handle>)

  /** One entry of the `onWhatsApp` answer. */
  datatype Contact = Contact(onPlatform: bool, jid: Option<string>)

  /**
   * The device-switch cleanup of the pairing route (example.ts:553-561): the
   * old number's credential directory is removed and its final session, if
   * registered, is logged out and forgotten.
   */
  function SwitchDevice(w: World, oldPhone: PhoneNumber): (r: World)
    ensures Normalize(oldPhone) !in r.creds && oldPhone !in r.sessions.active
    ensures forall q | q != Normalize(oldPhone) :: q in r.creds <==> q in w.creds
    ensures forall q | q != oldPhone :: q in r.sessions.active <==> q in w.sessions.active
    ensures r.users == w.users && r.monitors == w.monitors && r.pairings == w.pairings && r.next == w.next
    ensures SessionRegistry.Valid(w.sessions) ==> SessionRegistry.Valid(r.sessions)
    ensures forall h | h in r.sessions.live :: h in w.sessions.live && r.sessions.live[h] == w.sessions.live[h]
    ensures forall q | q in r.creds :: r.creds[q] == w.creds[q]
    ensures forall q | q in r.sessions.active :: r.sessions.active[q] == w.sessions.active[q]
  {
    w.(creds := RemoveAuthDir(w.creds, oldPhone), sessions := Drop(w.sessions, oldPhone))
  }

  /**
   * `POST /request-pairing-code` (example.ts:534-584): validate the body,
   * upsert the device's row, clean up after a device switch, then start a
   * pairing attempt for the cleaned number.
   */
  function RequestPairingCode(w: World, phone: Option<string>, device: Option<string>, code: Option<string>): (r: Response)
    ensures r.reply.BadRequest? <==> !Filled(phone) || !Filled(device) || Normalize(phone.value) == ""
    ensures r.reply.BadRequest? ==> r.world == w
    ensures r.reply.Conflict? <==> !r.reply.BadRequest? && HeldElsewhere(w.users, device.value, Normalize(phone.value))
    ensures r.reply.Conflict? ==> r.world == w
    ensures r.reply.BadRequest? || r.reply.Conflict? || r.reply.PairingFailed? || r.reply.PairingCode?
    ensures r.reply.PairingCode? ==> Filled(code) && r.reply == PairingCode(code.value, Normalize(phone.value))
    ensures !r.reply.BadRequest? && !r.reply.Conflict? ==> (r.reply.PairingCode? <==> Filled(code))
    ensures r.reply.PairingFailed? ==> r.world.pairings == w.pairings && r.world.next == w.next
    ensures r.reply.PairingCode? ==>
              r.world.pairings == w.pairings[w.next := Attempt(Normalize(phone.value), Start)] && r.world.next == w.next + 1
    ensures r.reply.PairingCode? || r.reply.PairingFailed? ==>
              && r.world.users.Keys == w.users.Keys + {device.value}
              && r.world.users[device.value] == User(Some(Normalize(phone.value)), false, None)
              && (forall d | d in w.users && d != device.value :: r.world.users[d] == w.users[d])
              && Normalize(phone.value) in r.world.creds && !r.world.creds[Normalize(phone.value)]
    ensures r.reply.PairingCode? || r.reply.PairingFailed? ==>
              var clean := Normalize(phone.value);
              var previous := if device.value in w.users then w.users[device.value].phone else None;
              && r.world.monitors == w.monitors
              && (forall q | q in r.world.creds :: q in w.creds || q == clean)
              && (forall q | q in w.creds && q != clean && !(previous.Some? && Normalize(previous.value) == q) ::
                    q in r.world.creds && r.world.creds[q] == w.creds[q])
              && (forall q | q in w.sessions.active && !(Filled(previous) && previous != Some(clean) && previous == Some(q)) ::
                    q in r.world.sessions.active && r.world.sessions.active[q] == w.sessions.active[q])
    ensures r.reply.PairingCode? || r.reply.PairingFailed? ==>
              device.value in w.users && Filled(w.users[device.value].phone)
              && w.users[device.value].phone != Some(Normalize(phone.value)) ==>
                w.users[device.value].phone.value !in r.world.sessions.active
  {
    if !Filled(phone) || !Filled(device) then Response(w, BadRequest)
    else
      var clean := Normalize(phone.value);
      if clean == "" then Response(w, BadRequest)
      else
        Idempotent(phone.value);
        match UpsertForPairing(w.users, device.value, clean)
        case Err(_) => Response(w, Conflict)
        case Ok(paired) =>
          var w1 := w.(users := paired.table);
          var w2 := if Filled(paired.oldPhone) then SwitchDevice(w1, paired.oldPhone.value) else w1;
          var started := BeginPairing(w2, paired.user.phone.value, code);
          if started.code.Some? then Response(started.world, PairingCode(started.code.value, clean))
          else Response(started.world, PairingFailed)
  }

  /** The pairing route keeps the invariant. */
  lemma RequestPairingCodeKeepsInv(w: World, phone: Option<string>, device: Option<string>, code: Option<string>)
    requires Inv(w)
    ensures Inv(RequestPairingCode(w, phone, device, code).world)
  {
    if Filled(phone) && Filled(device) && Normalize(phone.value) != "" {
      var clean := Normalize(phone.value);
      Idempotent(phone.value);
      UpsertKeepsValid(w.users, device.value, clean);
      var up := UpsertForPairing(w.users, device.value, clean);
      if up.Ok? {
        var paired := up.value;
        var w1 := w.(users := paired.table);
        assert Inv(w1);
        var w2 := if Filled(paired.oldPhone) then SwitchDevice(w1, paired.oldPhone.value) else w1;
        assert Inv(w2);
        BeginKeepsInv(w2, paired.user.phone.value, code);
      }
    }
  }

  /**
   * Re-pairing a device under a new number removes the old number's credential
   * directory and registry entry, and leaves a single row for the device.
   */
  lemma DeviceSwitchCleansOldNumber(w: World, phone: string, device: string, code: Option<string>)
    requires Inv(w)
    requires device in w.users && Filled(w.users[device].phone)
    requires w.users[device].phone != Some(Normalize(phone))
    ensures var r := RequestPairingCode(w, Some(phone), Some(device), code);
            var previous := w.users[device].phone.value;
            r.reply.PairingCode? || r.reply.PairingFailed? ==>
              && previous !in r.world.creds && previous !in r.world.sessions.active
              && forall d | d in r.world.users && d != device :: r.world.users[d].phone != Some(Normalize(phone))
  {
    var r := RequestPairingCode(w, Some(phone), Some(device), code);
    var previous := w.users[device].phone.value;
    if r.reply.PairingCode? || r.reply.PairingFailed? {
      DigitsAreFixed(previous);
      Idempotent(phone);
    }
  }

  /** The final session registered for `p` is open and speaks for `jid` (example.ts:642-643). */
  predicate SessionLive(w: World, p: PhoneNumber, jid: Jid, probe: Probe)
  {
    p in w.sessions.active
    && var h := w.sessions.active[p];
       h in probe.userIds && probe.userIds[h] != "" && h in probe.open && probe.userIds[h] == jid
  }

  /**
   * `GET /check-session-by-device/:deviceId` (example.ts:621-668): report the
   * device's session, and mark the row logged out when the store says logged
   * in but no matching live session exists.
   */
  function CheckSessionByDevice(w: World, device: string, probe: Probe): (r: Response)
    ensures r.reply.BadRequest? || r.reply.NotLoggedIn? || r.reply.LoggedIn?
    ensures r.reply.BadRequest? <==> device == ""
    ensures r.reply.LoggedIn? <==>
              && device != "" && device in w.users
              && Filled(w.users[device].phone) && w.users[device].loggedIn && Filled(w.users[device].jid)
              && SessionLive(w, w.users[device].phone.value, w.users[device].jid.value, probe)
    ensures r.reply.LoggedIn? ==>
              r.reply == LoggedIn(w.users[device].jid.value, w.users[device].phone.value, device)
    ensures r.world.sessions == w.sessions && r.world.creds == w.creds && r.world.monitors == w.monitors
            && r.world.pairings == w.pairings && r.world.next == w.next
    ensures r.world != w ==>
              && device in w.users && Filled(w.users[device].phone) && w.users[device].loggedIn
              && Filled(w.users[device].jid) && r.reply.NotLoggedIn?
    ensures device != "" && device in w.users
            && Filled(w.users[device].phone) && w.users[device].loggedIn && Filled(w.users[device].jid)
            && !SessionLive(w, w.users[device].phone.value, w.users[device].jid.value, probe) ==>
              r.world.users == UpdateLoginStatus(w.users, w.users[device].phone.value, false, None)
  {
    if device == "" then Response(w, BadRequest)
    else if device !in w.users then Response(w, NotLoggedIn)
    else
      var u := w.users[device];
      if !Filled(u.phone) || !u.loggedIn || !Filled(u.jid) then Response(w, NotLoggedIn)
      else if SessionLive(w, u.phone.value, u.jid.value, probe) then Response(w, LoggedIn(u.jid.value, u.phone.value, device))
      else Response(w.(users := UpdateLoginStatus(w.users, u.phone.value, false, None)), NotLoggedIn)
  }

  /** The correction made by the session check touches the device's own row only, and keeps the invariant. */
  lemma CheckSessionCorrectsOneRow(w: World, device: string, probe: Probe)
    requires Inv(w)
    ensures var r := CheckSessionByDevice(w, device, probe);
            && Inv(r.world)
            && (r.world != w ==> r.world.users == w.users[device := w.users[device].(loggedIn := false, jid := None)])
            && (device != "" && device in w.users && Filled(w.users[device].phone) && w.users[device].loggedIn
                && !SessionLive(w, w.users[device].phone.value, w.users[device].jid.value, probe) ==>
                  r.world.users == w.users[device := w.users[device].(loggedIn := false, jid := None)])
  {
    var r := CheckSessionByDevice(w, device, probe);
    if device != "" && device in w.users {
      var u := w.users[device];
      if Filled(u.phone) && u.loggedIn && Filled(u.jid) && !SessionLive(w, u.phone.value, u.jid.value, probe) {
        UpdateRewritesOneRow(w.users, device, false, None);
        UpdateKeepsValid(w.users, u.phone.value, false, None);
      }
    }
  }

  /** The owner's registered session speaks for `ownerJid` (example.ts:688-691). */
  predicate OwnerSessionActive(w: World, ownerJid: Jid, probe: Probe)
  {
    var part := UserPart(ownerJid);
    part in w.sessions.active
    && var h := w.sessions.active[part];
       h in probe.userIds && probe.userIds[h] != "" && probe.userIds[h] == ownerJid
  }

  /** The platform reports the contact as existing, with an identity (example.ts:697). */
  predicate Found(contacts: seq<Contact>)
  {
    |contacts| > 0 && contacts[0].onPlatform && Filled(contacts[0].jid)
  }

  /**
   * `POST /monitor-number` (example.ts:679-717): check the owner's session and
   * the contact, subscribe to its presence, and upsert the monitored row as
   * subscribed. `subscribes` is the outcome of `presenceSubscribe`.
   */
  function MonitorNumber(w: World, owner: Option<string>, number: Option<string>, displayName: Option<string>,
                         norm: string -> string, probe: Probe, contacts: seq<Contact>, subscribes: bool): (r: Response)
    ensures r.reply.BadRequest? || r.reply.OwnerInactive? || r.reply.ContactNotFound? || r.reply.InvalidTarget?
            || r.reply.SubscribeFailed? || r.reply.Monitoring?
    ensures !r.reply.Monitoring? ==> r.world == w
    ensures r.world.users == w.users && r.world.sessions == w.sessions && r.world.creds == w.creds
            && r.world.pairings == w.pairings && r.world.next == w.next
    ensures r.reply.BadRequest? <==> !Filled(owner) || !Filled(number)
    ensures r.reply.InvalidTarget? <==>
              Filled(owner) && Filled(number) && OwnerSessionActive(w, norm(owner.value), probe) && Found(contacts)
              && !IsUserJid(norm(contacts[0].jid.value))
    ensures r.reply.OwnerInactive? <==> Filled(owner) && Filled(number) && !OwnerSessionActive(w, norm(owner.value), probe)
    ensures r.reply.ContactNotFound? <==>
              Filled(owner) && Filled(number) && OwnerSessionActive(w, norm(owner.value), probe) && !Found(contacts)
    ensures r.reply.Monitoring? <==>
              Filled(owner) && Filled(number) && OwnerSessionActive(w, norm(owner.value), probe) && Found(contacts)
              && IsUserJid(norm(contacts[0].jid.value)) && subscribes
    ensures r.reply.SubscribeFailed? <==>
              Filled(owner) && Filled(number) && OwnerSessionActive(w, norm(owner.value), probe) && Found(contacts)
              && IsUserJid(norm(contacts[0].jid.value)) && !subscribes
    ensures r.reply.Monitoring? ==>
              && Filled(owner) && Filled(number) && OwnerSessionActive(w, norm(owner.value), probe) && Found(contacts)
              && IsUserJid(norm(contacts[0].jid.value)) && subscribes
              && var key := MonitorKey(norm(owner.value), norm(contacts[0].jid.value));
                 && r.world.monitors.Keys == w.monitors.Keys + {key}
                 && r.world.monitors[key].subscribed
                 && (forall k | k in w.monitors && k != key :: r.world.monitors[k] == w.monitors[k])
                 && r.world.monitors == AddMonitored(w.monitors, key.owner, key.target, displayName, true)
  {
    if !Filled(owner) || !Filled(number) then Response(w, BadRequest)
    else
      var ownerJid := norm(owner.value);
      if !OwnerSessionActive(w, ownerJid, probe) then Response(w, OwnerInactive)
      else if !Found(contacts) then Response(w, ContactNotFound)
      else
        var target := norm(contacts[0].jid.value);
        if !IsUserJid(target) then Response(w, InvalidTarget)
        else if !subscribes then Response(w, SubscribeFailed)
        else Response(w.(monitors := AddMonitored(w.monitors, ownerJid, target, displayName, true)), Monitoring)
  }

  /** Monitoring the same contact twice leaves the state of monitoring it once. */
  lemma MonitorNumberIdempotent(w: World, owner: Option<string>, number: Option<string>, displayName: Option<string>,
                                norm: string -> string, probe: Probe, contacts: seq<Contact>)
    ensures var once := MonitorNumber(w, owner, number, displayName, norm, probe, contacts, true);
            var twice := MonitorNumber(once.world, owner, number, displayName, norm, probe, contacts, true);
            twice == once
  {
    var once := MonitorNumber(w, owner, number, displayName, norm, probe, contacts, true);
    if once.reply.Monitoring? {
      AddMonitoredIdempotent(w.monitors, norm(owner.value), norm(contacts[0].jid.value), displayName, true);
    }
  }

  // ---------------------------------------------------------------------------
  // A pairing from request to logged-in session.

  /**
   * Requesting a code for a number not held by another device, then the
   * registration, the pairing socket's `open` and the final socket's `open`
   * with identity `jid` leave the device's single row logged in under that
   * number and identity.
   */
  lemma PairingRoundTrip(w: World, phone: string, device: string, code: string, jid: Jid, succeeded: set<Jid>)
    requires Inv(w)
    requires Normalize(phone) != "" && device != "" && code != "" && jid != ""
    requires !HeldElsewhere(w.users, device, Normalize(phone))
    ensures var w1 := RequestPairingCode(w, Some(phone), Some(device), Some(code));
            var w2 := OnPairingEvent(w1.world, w.next, Registered);
            var w3 := OnPairingEvent(w2, w.next, Open);
            var w4 := OnFinalOpen(w3, w.next + 1, Some(jid), succeeded);
            && w1.reply == PairingCode(code, Normalize(phone))
            && w4.users.Keys == w.users.Keys + {device}
            && w4.users[device] == User(Some(Normalize(phone)), true, Some(jid))
            && w4.sessions.active[Normalize(phone)] == w.next + 1
            && Inv(w4)
  {
    PairingHead(w, phone, device, code);
    var w1 := RequestPairingCode(w, Some(phone), Some(device), Some(code));
    PairingTail(OnPairingEvent(w1.world, w.next, Registered), w.next, Normalize(phone), device, jid, succeeded);
  }

  /** The first half of the pairing: the code is handed out, then the registration is saved. */
  lemma PairingHead(w: World, phone: string, device: string, code: string)
    requires Inv(w)
    requires Normalize(phone) != "" && device != "" && code != ""
    requires !HeldElsewhere(w.users, device, Normalize(phone))
    ensures var w1 := RequestPairingCode(w, Some(phone), Some(device), Some(code));
            var w2 := OnPairingEvent(w1.world, w.next, Registered);
            && w1.reply == PairingCode(code, Normalize(phone))
            && Inv(w2)
            && w.next in w2.pairings && w2.pairings[w.next] == Attempt(Normalize(phone), PairState(false, true))
            && Normalize(phone) in w2.creds && w2.creds[Normalize(phone)] && w2.next == w.next + 1
            && w2.users.Keys == w.users.Keys + {device}
            && w2.users[device] == User(Some(Normalize(phone)), false, None)
  {
    Idempotent(phone);
    var w1 := RequestPairingCode(w, Some(phone), Some(device), Some(code));
    RequestPairingCodeKeepsInv(w, Some(phone), Some(device), Some(code));
    RegistrationSaved(w1.world, w.next);
    PairingEventKeepsInv(w1.world, w.next, Registered);
  }

  /** The second half of the pairing: the pairing socket opens, then the final socket opens. */
  lemma PairingTail(w2: World, a: Handle, p: PhoneNumber, device: DeviceId, jid: Jid, succeeded: set<Jid>)
    requires Inv(w2) && jid != ""
    requires a in w2.pairings && w2.pairings[a] == Attempt(p, PairState(false, true))
    requires p in w2.creds && w2.creds[p] && w2.next == a + 1
    requires device in w2.users && w2.users[device] == User(Some(p), false, None)
    ensures var w3 := OnPairingEvent(w2, a, Open);
            var w4 := OnFinalOpen(w3, a + 1, Some(jid), succeeded);
            && w4.users.Keys == w2.users.Keys
            && w4.users[device] == User(Some(p), true, Some(jid))
            && p in w4.sessions.active && w4.sessions.active[p] == a + 1
            && Inv(w4)
  {
    var w3 := OnPairingEvent(w2, a, Open);
    OpenAfterRegistrationInstalls(w2, a);
    assert a + 1 in w3.sessions.live && w3.sessions.live[a + 1] == p;
    assert w3.users[device] == User(Some(p), false, None);
    DigitsAreFixed(p);
    OpenFacts(w3, a + 1, p, device, jid, succeeded);
  }

  /** A final open with an identity logs in the row holding the socket's number. */
  lemma OpenFacts(w3: World, h: Handle, p: PhoneNumber, device: DeviceId, jid: Jid, succeeded: set<Jid>)
    requires Inv(w3) && jid != "" && Normalize(p) == p
    requires h in w3.sessions.live && w3.sessions.live[h] == p && p in w3.sessions.active
    requires device in w3.users && w3.users[device].phone == Some(p)
    ensures var w4 := OnFinalOpen(w3, h, Some(jid), succeeded);
            && w4.users.Keys == w3.users.Keys
            && w4.users[device] == User(Some(p), true, Some(jid))
            && w4.sessions == w3.sessions
            && Inv(w4)
  {
    OpenKeepsInv(w3, h, Some(jid), succeeded);
  }
}

=== FILE: jids.dfy ===
/**
 * Protocol identities ("JIDs") as the server inspects them: the user part before
 * the first `@` (`jid.split('@')[0]`) and the individual-user server suffix.
 */
module Jids {

  /** A protocol identity such as `15551234567@s.whatsapp.net`. */
  type Jid = string

  /** The server part of an individual user's identity (example.ts:702). */
  const UserServer: string := "@s.whatsapp.net"

  /** `jid.split('@')[0]`: everything before the first `@`, or all of `jid`. */
  function UserPart(jid: string): (r: string)
    ensures '@' !in r
    ensures r <= jid
    ensures |r| < |jid| ==> jid[|r|] == '@'
  {
    if jid == [] || jid[0] == '@' then []
    else [jid[0]] + UserPart(jid[1..])
  }

  /** `s.endsWith(suffix)`. */
  predicate EndsWith(s: string, suffix: string)
  {
    |suffix| <= |s| && s[|s| - |suffix|..] == suffix
  }

  /** An individual-user identity, as opposed to a group or broadcast one. */
  predicate IsUserJid(jid: string)
  {
    EndsWith(jid, UserServer)
  }

  /** Joining a user part and a server with `@` and splitting again gives the user part back. */
  lemma {:induction false} UserPartOfJoin(user: string, server: string)
    requires '@' !in user
    ensures UserPart(user + "@" + server) == user
  {
    if user != [] {
      assert (user + "@" + server)[0] == user[0];
      assert (user + "@" + server)[1..] == user[1..] + "@" + server;
      UserPartOfJoin(user[1..], server);
    } else {
      assert (user + "@" + server)[0] == '@';
    }
  }
}

=== FILE: monitors.dfy ===
/**
 * The `monitored_numbers` table (example.ts:123-135), keyed by its UNIQUE pair
 * `(ownerUserJid, monitoredJid)`, and the two operations that write it.
 * `lastSeen` and `lastKnownPresence` are never written by the server and are not modelled.
 */
module Monitors {
  import opened Wrappers
  import opened Jids

  datatype MonitorKey = MonitorKey(owner: Jid, target: Jid)

  datatype Monitor = Monitor(displayName: Option<string>, subscribed: bool)

  type MonitorTable = map<MonitorKey, Monitor>

  /**
   * `addMonitoredNumber(ownerUserJid, monitoredJid, displayName, isSubscribed)`
   * (example.ts:247-275): update the existing row, keeping its display name when
   * none is given (`COALESCE`), or insert a new one.
   */
  function AddMonitored(t: MonitorTable, owner: Jid, target: Jid, displayName: Option<string>, subscribed: bool): (r: MonitorTable)
    ensures r.Keys == t.Keys + {MonitorKey(owner, target)}
    ensures r[MonitorKey(owner, target)].subscribed == subscribed
    ensures displayName.Some? ==> r[MonitorKey(owner, target)].displayName == displayName
    ensures displayName.None? && MonitorKey(owner, target) in t ==>
              r[MonitorKey(owner, target)].displayName == t[MonitorKey(owner, target)].displayName
    ensures displayName.None? && MonitorKey(owner, target) !in t ==> r[MonitorKey(owner, target)].displayName == None
    ensures forall k | k in t && k != MonitorKey(owner, target) :: r[k] == t[k]
  {
    var key := MonitorKey(owner, target);
    if key in t then
      var name := if displayName.Some? then displayName else t[key].displayName;
      t[key := Monitor(name, subscribed)]
    else
      t[key := Monitor(displayName, subscribed)]
  }

  /** Adding a monitor creates a row only when the pair is new: repeated calls never duplicate it. */
  lemma AddMonitoredRowCount(t: MonitorTable, owner: Jid, target: Jid, displayName: Option<string>, subscribed: bool)
    ensures |AddMonitored(t, owner, target, displayName, subscribed)| == if MonitorKey(owner, target) in t then |t| else |t| + 1
  {
    var r := AddMonitored(t, owner, target, displayName, subscribed);
    if MonitorKey(owner, target) !in t {
      assert r.Keys == t.Keys + {MonitorKey(owner, target)};
      assert |r.Keys| == |t.Keys| + 1;
    } else {
      assert r.Keys == t.Keys;
    }
  }

  /** Adding the same monitor twice has the effect of adding it once. */
  lemma AddMonitoredIdempotent(t: MonitorTable, owner: Jid, target: Jid, displayName: Option<string>, subscribed: bool)
    ensures AddMonitored(AddMonitored(t, owner, target, displayName, subscribed), owner, target, displayName, subscribed)
         == AddMonitored(t, owner, target, displayName, subscribed)
  {
  }

  /**
   * `updateMonitoredNumberSubscription(monitoredJid, ownerUserJid, isSubscribed)`
   * (example.ts:277-285): set the flag of the one matching row, if there is one.
   */
  function UpdateSubscription(t: MonitorTable, target: Jid, owner: Jid, subscribed: bool): (r: MonitorTable)
    ensures r.Keys == t.Keys
    ensures MonitorKey(owner, target) in t ==>
              r[MonitorKey(owner, target)] == t[MonitorKey(owner, target)].(subscribed := subscribed)
    ensures forall k | k in t && k != MonitorKey(owner, target) :: r[k] == t[k]
  {
    var key := MonitorKey(owner, target);
    if key in t then t[key := t[key].(subscribed := subscribed)] else t
  }

  /** The rows `getMonitoredNumbersByOwner(ownerUserJid)` lists (example.ts:287-296). */
  function OwnedBy(t: MonitorTable, owner: Jid): (keys: set<MonitorKey>)
  {
    set k | k in t && k.owner == owner
  }
}

=== FILE: orchestrator.dfy ===
/**
 * The session lifecycle as transitions over one abstract state: the two tables,
 * the session registry, the credential directories on disk and the pairing
 * attempts in flight. Sockets, SQL and the filesystem are replaced by these
 * maps; every event a socket can deliver is a function from state to state.
 */
module Orchestrator {
  import opened Wrappers
  import opened Phone
  import opened Jids
  import opened Users
  import opened Monitors
  import opened Presence
  import opened SessionRegistry
  import opened Pairing

  /** `DisconnectReason.loggedOut`: the status code of a logout issued by the platform. */
  const LoggedOutStatus: int := 401

  /**
   * The directories `baileys_auth_info_<digits>`: the numbers that have one,
   * mapped to whether the credentials saved there are registered.
   */
  type CredentialStore = map<PhoneNumber, bool>

  /** A pairing socket in flight: its number and its handler's state. */
  datatype Attempt = Attempt(phone: PhoneNumber, state: PairState)

  datatype World = World(
    users: UserTable,
    monitors: MonitorTable,
    sessions: Registry,
    creds: CredentialStore,
    pairings: map<Handle, Attempt>,
    next: Handle)  // the handle the next socket gets

  /** The invariant every transition keeps. */
  predicate Inv(w: World)
  {
    && Users.Valid(w.users)
    && SessionRegistry.Valid(w.sessions)
    && (forall h | h in w.sessions.live :: h < w.next && AllDigits(w.sessions.live[h]))
    && (forall a | a in w.pairings :: a < w.next && AllDigits(w.pairings[a].phone))
  }

  /** `removeAuthDir(phoneNumber)` (example.ts:58-67): delete the number's credential directory if present. */
  function RemoveAuthDir(creds: CredentialStore, phone: string): (r: CredentialStore)
    ensures forall q :: q in r <==> q in creds && q != Normalize(phone)
    ensures forall q | q in r :: r[q] == creds[q]
  {
    creds - {Normalize(phone)}
  }

  /**
   * `verifyAndEstablishFinalSession(pairedPhoneNumber)` (example.ts:338-377):
   * without registered credentials on disk the number is marked logged out;
   * otherwise a new final socket is created, the socket already registered for
   * the number is ended (which delivers its close update, not a logout), and
   * the new one takes its place.
   */
  function VerifyAndEstablish(w: World, phone: string): (r: World)
    ensures r.monitors == w.monitors && r.pairings == w.pairings
    ensures Normalize(phone) !in w.creds || !w.creds[Normalize(phone)] ==>
              && r.sessions == w.sessions && r.creds == w.creds && r.next == w.next
              && r.users.Keys == w.users.Keys
              && (forall d | d in w.users && w.users[d].phone == Some(Normalize(phone)) ::
                    !r.users[d].loggedIn && r.users[d].jid == None && r.users[d].phone == w.users[d].phone)
              && (forall d | d in w.users && w.users[d].phone != Some(Normalize(phone)) :: r.users[d] == w.users[d])
    ensures Normalize(phone) in w.creds && w.creds[Normalize(phone)] ==>
              && (SessionRegistry.Valid(w.sessions) ==> r.sessions.active == w.sessions.active[Normalize(phone) := w.next])
              && w.next in r.sessions.live && r.next == w.next + 1
              && r.creds == w.creds
              && (Normalize(phone) !in w.sessions.active ==> r.users == w.users)
              && (SessionRegistry.Valid(w.sessions) ==>
                    r.users == if Normalize(phone) in w.sessions.active then SignOut(w.users, Normalize(phone)) else w.users)
  {
    Idempotent(phone);
    var p := Normalize(phone);
    if p !in w.creds || !w.creds[p] then
      w.(users := UpdateLoginStatus(w.users, p, false, None))
    else
      var w1 := if p in w.sessions.active then OnFinalClose(w, w.sessions.active[p], None) else w;
      w1.(sessions := Install(w1.sessions, p, w.next).registry, next := w.next + 1)
  }

  /**
   * The final socket's `open` update (example.ts:386-393): with the socket's
   * user identity known, its number is marked logged in under that identity and
   * the owner's stored presences are reconciled; without it nothing changes.
   */
  function OnFinalOpen(w: World, h: Handle, userId: Option<Jid>, succeeded: set<Jid>): (r: World)
    ensures h !in w.sessions.live || !Filled(userId) ==> r == w
    ensures r.sessions == w.sessions && r.creds == w.creds && r.pairings == w.pairings && r.next == w.next
    ensures r.users.Keys == w.users.Keys
    ensures forall d | d in w.users && r.users[d] != w.users[d] ::
              h in w.sessions.live && w.users[d].phone == Some(Normalize(w.sessions.live[h]))
              && r.users[d].loggedIn && r.users[d].jid == userId && Filled(userId)
    ensures h in w.sessions.live && Filled(userId) ==>
              && (forall d | d in w.users && w.users[d].phone == Some(Normalize(w.sessions.live[h])) ::
                    r.users[d].loggedIn && r.users[d].jid == userId)
              && r.monitors == Reconcile(w.monitors, userId.value, succeeded)
  {
    if h in w.sessions.live && Filled(userId) then
      var p := w.sessions.live[h];
      w.(users := UpdateLoginStatus(w.users, p, true, userId),
         monitors := Reconcile(w.monitors, userId.value, succeeded))
    else
      w
  }

  /**
   * The final socket's `close` update (example.ts:394-406): the registry entry
   * of its number is deleted, a logged-in row is marked logged out, and the
   * credential directory is deleted when the platform logged the device out.
   */
  function OnFinalClose(w: World, h: Handle, status: Option<int>): (r: World)
    ensures h !in w.sessions.live ==> r == w
    ensures r.monitors == w.monitors && r.pairings == w.pairings && r.next == w.next
    ensures h in w.sessions.live ==>
              forall q | q in w.sessions.active && q != w.sessions.live[h] ::
                q in r.sessions.active && r.sessions.active[q] == w.sessions.active[q]
    ensures h in w.sessions.live ==>
              && w.sessions.live[h] !in r.sessions.active
              && h !in r.sessions.live
              && r.users == SignOut(w.users, w.sessions.live[h])
              && r.creds == if status == Some(LoggedOutStatus) then RemoveAuthDir(w.creds, w.sessions.live[h]) else w.creds
  {
    if h !in w.sessions.live then w
    else
      var p := w.sessions.live[h];
      w.(sessions := Closed(w.sessions, h),
         users := SignOut(w.users, p),
         creds := if status == Some(LoggedOutStatus) then RemoveAuthDir(w.creds, p) else w.creds)
  }

  /** The state after a pairing request, and the pairing code obtained, if any. */
  datatype Started = Started(world: World, code: Option<string>)

  /**
   * `initializeUserSessionForPairing` (example.ts:422-511): clear the number's
   * credential directory and start over with fresh credentials, then ask for a
   * pairing code; `code` is what the platform answers. Without a code the
   * socket is ended and the request fails; with one the attempt stays in flight.
   */
  function BeginPairing(w: World, phone: string, code: Option<string>): (r: Started)
    ensures r.world.creds == w.creds[Normalize(phone) := false]
    ensures r.world.users == w.users && r.world.monitors == w.monitors && r.world.sessions == w.sessions
    ensures r.code.Some? <==> Filled(code)
    ensures r.code.Some? ==>
              && r.code == code
              && r.world.pairings == w.pairings[w.next := Attempt(Normalize(phone), Start)]
              && r.world.next == w.next + 1
    ensures r.code.None? ==> r.world.pairings == w.pairings && r.world.next == w.next
  {
    var p := Normalize(phone);
    var w1 := w.(creds := w.creds[p := false]);
    if Filled(code) then
      Started(w1.(pairings := w.pairings[w.next := Attempt(p, Start)], next := w.next + 1), code)
    else
      Started(w1, None)
  }

  /**
   * An update delivered to the pairing socket `a` (example.ts:457-495). A
   * registration is saved to the credential directory; a handoff ends the
   * pairing socket and starts the final session; a close ends the attempt.
   */
  function OnPairingEvent(w: World, a: Handle, e: PairEvent): (r: World)
    ensures a !in w.pairings ==> r == w
    ensures a in w.pairings && (e == Close || IsHandoff(Step(w.pairings[a].state, e).action)) ==> a !in r.pairings
    ensures r.sessions != w.sessions || r.next != w.next ==>
              a in w.pairings && !w.pairings[a].state.initiated && w.pairings[a].state.registered && e != Registered
    ensures a in w.pairings && e == Registered ==> r.creds == w.creds[w.pairings[a].phone := true]
    ensures a in w.pairings && e == Open && !w.pairings[a].state.registered ==> r == w
    ensures a in w.pairings && IsHandoff(Step(w.pairings[a].state, e).action) ==>
              r == VerifyAndEstablish(w.(pairings := w.pairings - {a}), w.pairings[a].phone)
    ensures r.monitors == w.monitors
    ensures a in w.pairings && !IsHandoff(Step(w.pairings[a].state, e).action) ==>
              && r.users == w.users && r.sessions == w.sessions && r.next == w.next
              && r.creds == (if e == Registered then w.creds[w.pairings[a].phone := true] else w.creds)
  {
    if a !in w.pairings then w
    else
      var at := w.pairings[a];
      var step := Step(at.state, e);
      var w1 := if e == Registered then w.(creds := w.creds[at.phone := true]) else w;
      if IsHandoff(step.action) then VerifyAndEstablish(w1.(pairings := w.pairings - {a}), at.phone)
      else if e == Close then w1.(pairings := w.pairings - {a})
      else w1.(pairings := w.pairings[a := Attempt(at.phone, step.state)])
  }

  // ---------------------------------------------------------------------------
  // The invariant is kept by every transition.

  lemma CloseKeepsInv(w: World, h: Handle, status: Option<int>)
    requires Inv(w)
    ensures Inv(OnFinalClose(w, h, status))
  {
    if h in w.sessions.live {
      SignOutKeepsValid(w.users, w.sessions.live[h]);
    }
  }

  lemma VerifyKeepsInv(w: World, phone: string)
    requires Inv(w)
    ensures Inv(VerifyAndEstablish(w, phone))
  {
    var p := Normalize(phone);
    if p !in w.creds || !w.creds[p] {
      UpdateKeepsValid(w.users, p, false, None);
    } else {
      var w1 := if p in w.sessions.active then OnFinalClose(w, w.sessions.active[p], None) else w;
      if p in w.sessions.active {
        CloseKeepsInv(w, w.sessions.active[p], None);
      }
      assert w.next !in w1.sessions.live;
    }
  }

  lemma OpenKeepsInv(w: World, h: Handle, userId: Option<Jid>, succeeded: set<Jid>)
    requires Inv(w)
    ensures Inv(OnFinalOpen(w, h, userId, succeeded))
  {
    if h in w.sessions.live && Filled(userId) {
      UpdateKeepsValid(w.users, w.sessions.live[h], true, userId);
    }
  }

  lemma BeginKeepsInv(w: World, phone: string, code: Option<string>)
    requires Inv(w)
    ensures Inv(BeginPairing(w, phone, code).world)
  {
  }

  lemma PairingEventKeepsInv(w: World, a: Handle, e: PairEvent)
    requires Inv(w)
    ensures Inv(OnPairingEvent(w, a, e))
  {
    if a in w.pairings {
      var at := w.pairings[a];
      var w1 := if e == Registered then w.(creds := w.creds[at.phone := true]) else w;
      if IsHandoff(Step(at.state, e).action) {
        VerifyKeepsInv(w1.(pairings := w.pairings - {a}), at.phone);
      }
    }
  }

  // ---------------------------------------------------------------------------
  // Properties of the lifecycle.

  /** A final session's close deletes the number's credentials exactly when the platform logged it out. */
  lemma CloseDeletesCredsIffLoggedOut(w: World, h: Handle, status: Option<int>)
    requires Inv(w) && h in w.sessions.live
    ensures var p := w.sessions.live[h];
            p in OnFinalClose(w, h, status).creds <==> p in w.creds && status != Some(LoggedOutStatus)
    ensures forall q | q != w.sessions.live[h] :: q in OnFinalClose(w, h, status).creds <==> q in w.creds
  {
    DigitsAreFixed(w.sessions.live[h]);
  }

  /** After a final session closes, no row holding its number is logged in, and the registry forgets it. */
  lemma CloseLogsOut(w: World, h: Handle, status: Option<int>)
    requires Inv(w) && h in w.sessions.live
    ensures var r := OnFinalClose(w, h, status);
            && w.sessions.live[h] !in r.sessions.active
            && forall d | d in r.users && r.users[d].phone == Some(w.sessions.live[h]) :: !r.users[d].loggedIn
  {
    var p := w.sessions.live[h];
    DigitsAreFixed(p);
  }

  /**
   * Installing a final session ends every earlier final socket of the number:
   * afterwards the new socket is the only live one for it.
   */
  lemma EstablishLeavesOneLiveSocket(w: World, phone: string)
    requires Inv(w)
    requires Normalize(phone) in w.creds && w.creds[Normalize(phone)]
    ensures var r := VerifyAndEstablish(w, phone);
            forall h | h in r.sessions.live && r.sessions.live[h] == Normalize(phone) :: h == w.next
  {
    VerifyKeepsInv(w, phone);
  }

  /** A registration before any connection update is saved and remembered by the attempt. */
  lemma RegistrationSaved(w: World, a: Handle)
    requires a in w.pairings && w.pairings[a].state == Start
    ensures var at := w.pairings[a];
            OnPairingEvent(w, a, Registered)
              == w.(creds := w.creds[at.phone := true],
                    pairings := w.pairings[a := Attempt(at.phone, PairState(false, true))])
  {
  }

  /**
   * The pairing socket opening after registration starts the final session
   * under the next handle: it becomes the number's registered socket, the
   * attempt ends, and rows that were logged out stay as they were.
   */
  lemma OpenAfterRegistrationInstalls(w: World, a: Handle)
    requires Inv(w)
    requires a in w.pairings && w.pairings[a].state == PairState(false, true)
    requires w.pairings[a].phone in w.creds && w.creds[w.pairings[a].phone]
    ensures var p := w.pairings[a].phone;
            var r := OnPairingEvent(w, a, Open);
            && Inv(r)
            && r == VerifyAndEstablish(w.(pairings := w.pairings - {a}), p)
            && r.sessions.active == w.sessions.active[p := w.next]
            && w.next in r.sessions.live && r.sessions.live[w.next] == p
            && r.next == w.next + 1 && a !in r.pairings
            && r.users.Keys == w.users.Keys
            && forall d | d in w.users && !w.users[d].loggedIn :: r.users[d] == w.users[d]
  {
    var p := w.pairings[a].phone;
    var w0 := w.(pairings := w.pairings - {a});
    DigitsAreFixed(p);
    PairingEventKeepsInv(w, a, Open);
    VerifyKeepsInv(w0, p);
    var r := VerifyAndEstablish(w0, p);
    assert r == OnPairingEvent(w, a, Open);
    assert r.sessions.live[w.next] == p by {
      var w1 := if p in w0.sessions.active then OnFinalClose(w0, w0.sessions.active[p], None) else w0;
      assert r.sessions == Install(w1.sessions, p, w.next).registry;
    }
  }

  /**
   * The fallback of the pairing handler: the pairing socket closing after
   * registration, before any handoff, starts the final session under the next
   * handle just as an open would.
   */
  lemma CloseAfterRegistrationInstalls(w: World, a: Handle)
    requires Inv(w)
    requires a in w.pairings && w.pairings[a].state == PairState(false, true)
    requires w.pairings[a].phone in w.creds && w.creds[w.pairings[a].phone]
    ensures var p := w.pairings[a].phone;
            var r := OnPairingEvent(w, a, Close);
            && Inv(r)
            && r == VerifyAndEstablish(w.(pairings := w.pairings - {a}), p)
            && r.sessions.active == w.sessions.active[p := w.next]
            && w.next in r.sessions.live && r.sessions.live[w.next] == p
            && r.next == w.next + 1 && a !in r.pairings
            && r.users.Keys == w.users.Keys
            && forall d | d in w.users && !w.users[d].loggedIn :: r.users[d] == w.users[d]
  {
    var p := w.pairings[a].phone;
    var w0 := w.(pairings := w.pairings - {a});
    DigitsAreFixed(p);
    PairingEventKeepsInv(w, a, Close);
    VerifyKeepsInv(w0, p);
    var r := VerifyAndEstablish(w0, p);
    assert r == OnPairingEvent(w, a, Close);
    assert r.sessions.live[w.next] == p by {
      var w1 := if p in w0.sessions.active then OnFinalClose(w0, w0.sessions.active[p], None) else w0;
      assert r.sessions == Install(w1.sessions, p, w.next).registry;
    }
  }

  /** The pairing socket of an attempt starts the final session at most once. */
  lemma HandoffEndsAttempt(w: World, a: Handle, e: PairEvent)
    requires a in w.pairings
    requires IsHandoff(Step(w.pairings[a].state, e).action)
    ensures a !in OnPairingEvent(w, a, e).pairings
    ensures OnPairingEvent(OnPairingEvent(w, a, e), a, e) == OnPairingEvent(w, a, e)
  {
  }
}

=== FILE: pairing.dfy ===
/**
 * The connection handler of the transient pairing socket in
 * `initializeUserSessionForPairing` (example.ts:455-495): a small state machine
 * over the `finalSessionLogicInitiated` flag and `state.creds.registered`, fed
 * with the socket's `open` and `close` updates and the registration carried by
 * a `creds.update`. Its one job is to start the final session at most once.
 */
module Pairing {

  datatype PairEvent =
    | Open        // connection.update with connection === 'open'
    | Close       // connection.update with connection === 'close'
    | Registered  // creds.update that marks the credentials registered

  datatype PairState = PairState(initiated: bool, registered: bool)

  /** A fresh attempt: nothing initiated, fresh (unregistered) credentials. */
  const Start: PairState := PairState(false, false)

  datatype Action =
    | NoAction
    | AwaitRegistration   // opened before registration: wait for creds.update
    | HandoffAfterLogout  // log the pairing socket out, then start the final session
    | HandoffOnClose      // fallback: the socket closed after registration
    | Abandon             // closed before registration: the user must retry

  predicate IsHandoff(a: Action)
  {
    a.HandoffAfterLogout? || a.HandoffOnClose?
  }

  /** The handler's state after an event, and what it did. */
  datatype Transition = Transition(state: PairState, action: Action)

  /** One event through the handler (example.ts:457-494). */
  function Step(s: PairState, e: PairEvent): (r: Transition)
    ensures IsHandoff(r.action) <==> !s.initiated && s.registered && e != Registered
    ensures r.state.initiated == (s.initiated || IsHandoff(r.action))
    ensures r.state.registered == (s.registered || e == Registered)
    ensures r.action.Abandon? <==> e == Close && !s.initiated && !s.registered
    ensures r.action.AwaitRegistration? <==> e == Open && !s.registered
  {
    match e
    case Registered => Transition(s.(registered := true), NoAction)
    case Open =>
      if !s.initiated && s.registered then Transition(s.(initiated := true), HandoffAfterLogout)
      else if !s.registered then Transition(s, AwaitRegistration)
      else Transition(s, NoAction)
    case Close =>
      if !s.initiated && s.registered then Transition(s.(initiated := true), HandoffOnClose)
      else if !s.initiated && !s.registered then Transition(s, Abandon)
      else Transition(s, NoAction)
  }

  /** The state after a sequence of events. */
  function Run(s: PairState, es: seq<PairEvent>): PairState
    decreases |es|
  {
    if es == [] then s else Run(Step(s, es[0]).state, es[1..])
  }

  /** How many times the final session is started along a sequence of events. */
  function Handoffs(s: PairState, es: seq<PairEvent>): nat
    decreases |es|
  {
    if es == [] then 0
    else (if IsHandoff(Step(s, es[0]).action) then 1 else 0) + Handoffs(Step(s, es[0]).state, es[1..])
  }

  /** The final session is started at most once per attempt, and never again once initiated. */
  lemma {:induction false} AtMostOnce(s: PairState, es: seq<PairEvent>)
    ensures Handoffs(s, es) <= if s.initiated then 0 else 1
    ensures Run(s, es).initiated <==> s.initiated || Handoffs(s, es) == 1
    decreases |es|
  {
    if es != [] {
      AtMostOnce(Step(s, es[0]).state, es[1..]);
    }
  }

  /** Some connection event (open or close) follows a registration. */
  predicate RegisteredThenConnection(es: seq<PairEvent>)
  {
    exists i, j | 0 <= i < j < |es| :: es[i] == Registered && es[j] != Registered
  }

  /** Some event is a connection event. */
  predicate HasConnectionEvent(es: seq<PairEvent>)
  {
    exists j | 0 <= j < |es| :: es[j] != Registered
  }

  lemma {:induction false} HandoffIffFrom(s: PairState, es: seq<PairEvent>)
    requires !s.initiated
    ensures Handoffs(s, es) == 1 <==> (s.registered && HasConnectionEvent(es)) || RegisteredThenConnection(es)
    decreases |es|
  {
    if es != [] {
      var e, rest := es[0], es[1..];
      assert forall j | 0 <= j < |rest| :: rest[j] == es[j + 1];
      var s' := Step(s, e).state;
      if e == Registered {
        HandoffIffFrom(s', rest);
        if HasConnectionEvent(rest) {
          var j :| 0 <= j < |rest| && rest[j] != Registered;
          assert es[0] == Registered && es[j + 1] != Registered;
        }
        if RegisteredThenConnection(rest) {
          var i, j :| 0 <= i < j < |rest| && rest[i] == Registered && rest[j] != Registered;
          assert es[i + 1] == Registered && es[j + 1] != Registered;
        }
        if RegisteredThenConnection(es) {
          var i, j :| 0 <= i < j < |es| && es[i] == Registered && es[j] != Registered;
          assert rest[j - 1] != Registered;
          if i > 0 {
            assert rest[i - 1] == Registered;
          }
        }
        if HasConnectionEvent(es) {
          var j :| 0 <= j < |es| && es[j] != Registered;
          assert rest[j - 1] != Registered;
        }
      } else if s.registered {
        AtMostOnce(s', rest);
        assert es[0] != Registered;
      } else {
        assert s' == s;
        HandoffIffFrom(s', rest);
        if RegisteredThenConnection(es) {
          var i, j :| 0 <= i < j < |es| && es[i] == Registered && es[j] != Registered;
          assert rest[i - 1] == Registered && rest[j - 1] != Registered;
        }
        if RegisteredThenConnection(rest) {
          var i, j :| 0 <= i < j < |rest| && rest[i] == Registered && rest[j] != Registered;
          assert es[i + 1] == Registered && es[j + 1] != Registered;
        }
      }
    }
  }

  /**
   * From a fresh attempt the final session starts exactly when an open or close
   * update arrives after the registration, and otherwise never.
   */
  lemma HandoffIff(es: seq<PairEvent>)
    ensures Handoffs(Start, es) == 1 <==> RegisteredThenConnection(es)
    ensures Handoffs(Start, es) == 0 <==> !RegisteredThenConnection(es)
  {
    HandoffIffFrom(Start, es);
    AtMostOnce(Start, es);
  }

  /** A pairing socket that opens and closes without ever registering starts nothing. */
  lemma {:induction false} NoRegistrationNoHandoff(s: PairState, es: seq<PairEvent>)
    requires !s.registered
    requires Registered !in es
    ensures Handoffs(s, es) == 0
    ensures Run(s, es) == s
    decreases |es|
  {
    if es != [] {
      assert es[0] != Registered;
      assert Registered !in es[1..];
      NoRegistrationNoHandoff(Step(s, es[0]).state, es[1..]);
    }
  }
}

=== FILE: phone.dfy ===
/**
 * Phone-number normalisation: every entry point strips all characters except
 * the ASCII digits (`replace(/[^0-9]/g, '')`), and the cleaned string is the
 * key of the users table, the session registry and the credential directories.
 */
module Phone {

  /** A phone number as the server stores it (digits only once normalised). */
  type PhoneNumber = string

  predicate IsDigit(c: char)
  {
    '0' <= c <= '9'
  }

  predicate AllDigits(s: string)
  {
    forall i :: 0 <= i < |s| ==> IsDigit(s[i])
  }

  /** The digits of `s`, in their original order. */
  function Normalize(s: string): (r: PhoneNumber)
    ensures AllDigits(r)
    ensures |r| <= |s|
  {
    if s == [] then []
    else if IsDigit(s[0]) then [s[0]] + Normalize(s[1..])
    else Normalize(s[1..])
  }

  /** A digits-only string is its own normal form. */
  lemma {:induction false} DigitsAreFixed(s: string)
    requires AllDigits(s)
    ensures Normalize(s) == s
  {
    if s != [] {
      assert AllDigits(s[1..]) by {
        forall i | 0 <= i < |s[1..]| ensures IsDigit(s[1..][i]) {
          assert s[1..][i] == s[i + 1];
        }
      }
      DigitsAreFixed(s[1..]);
      assert s == [s[0]] + s[1..];
    }
  }

  /** Normalising twice is normalising once. */
  lemma {:induction false} Idempotent(s: string)
    ensures Normalize(Normalize(s)) == Normalize(s)
  {
    DigitsAreFixed(Normalize(s));
  }

  /** The strings normalisation leaves alone are exactly the digit strings. */
  lemma {:induction false} FixedIffDigits(s: string)
    ensures Normalize(s) == s <==> AllDigits(s)
  {
    if AllDigits(s) {
      DigitsAreFixed(s);
    }
  }

  /** A number normalises to the empty string exactly when it holds no digit. */
  lemma {:induction false} EmptyIffNoDigit(s: string)
    ensures Normalize(s) == [] <==> forall i :: 0 <= i < |s| ==> !IsDigit(s[i])
  {
    if s != [] {
      EmptyIffNoDigit(s[1..]);
      assert forall i :: 1 <= i < |s| ==> s[i] == s[1..][i - 1];
      if !IsDigit(s[0]) && forall i :: 0 <= i < |s[1..]| ==> !IsDigit(s[1..][i]) {
        forall i | 0 <= i < |s| ensures !IsDigit(s[i]) {
          if i > 0 {
            assert s[i] == s[1..][i - 1];
          }
        }
      }
    }
  }

  /** Normalisation works character by character: it distributes over concatenation. */
  lemma {:induction false} Append(a: string, b: string)
    ensures Normalize(a + b) == Normalize(a) + Normalize(b)
  {
    if a == [] {
      assert a + b == b;
    } else {
      assert (a + b)[0] == a[0];
      assert (a + b)[1..] == a[1..] + b;
      Append(a[1..], b);
    }
  }

  /** Every digit of `s` survives normalisation, with its multiplicity, and nothing else does. */
  lemma {:induction false} SameDigits(s: string)
    ensures forall c :: IsDigit(c) ==> multiset(Normalize(s))[c] == multiset(s)[c]
    ensures forall c :: !IsDigit(c) ==> multiset(Normalize(s))[c] == 0
  {
    if s != [] {
      SameDigits(s[1..]);
      assert s == [s[0]] + s[1..];
      assert multiset(s) == multiset([s[0]]) + multiset(s[1..]);
      if IsDigit(s[0]) {
        assert multiset(Normalize(s)) == multiset([s[0]]) + multiset(Normalize(s[1..]));
      }
    }
  }
}

=== FILE: presence.dfy ===
/**
 * `subscribeToStoredPresences` (example.ts:314-336): the reconcile pass run when
 * a final session opens. Whether each `presenceSubscribe` call succeeds is an
 * input: `succeeded` holds the monitored identities whose call succeeds.
 */
module Presence {
  import opened Jids
  import opened Monitors

  /** What the pass does to one listed row (example.ts:318-334). */
  function ReconcileRow(k: MonitorKey, row: Monitor, succeeded: set<Jid>): Monitor
  {
    if k.target != "" && !row.subscribed then row.(subscribed := k.target in succeeded) else row
  }

  /** The effect of a whole pass for `owner`, row by row. */
  function Reconcile(t: MonitorTable, owner: Jid, succeeded: set<Jid>): (r: MonitorTable)
    ensures r.Keys == t.Keys
    ensures forall k | k in t && k.owner != owner :: r[k] == t[k]
    ensures forall k | k in t && t[k].subscribed :: r[k] == t[k]
    ensures forall k | k in t && k.owner == owner && k.target != "" && !t[k].subscribed ::
              (r[k].subscribed <==> k.target in succeeded) && r[k].displayName == t[k].displayName
    ensures forall k | k in t && k.target == "" :: r[k] == t[k]
  {
    map k | k in t :: if k.owner == owner then ReconcileRow(k, t[k], succeeded) else t[k]
  }

  /** Running the pass again with the same outcomes changes nothing. */
  lemma ReconcileIdempotent(t: MonitorTable, owner: Jid, succeeded: set<Jid>)
    ensures Reconcile(Reconcile(t, owner, succeeded), owner, succeeded) == Reconcile(t, owner, succeeded)
  {
  }

  /**
   * The loop of `subscribeToStoredPresences` as written: list the owner's rows,
   * then for each one subscribe and record the outcome, or re-assert a row
   * already subscribed and leave its stored flag alone.
   */
  method ReconcilePass(t: MonitorTable, owner: Jid, succeeded: set<Jid>) returns (r: MonitorTable)
    ensures r == Reconcile(t, owner, succeeded)
  {
    var rows := OwnedBy(t, owner);
    r := t;
    while rows != {}
      invariant rows <= OwnedBy(t, owner)
      invariant r.Keys == t.Keys
      invariant forall k | k in t && (k.owner != owner || k in rows) :: r[k] == t[k]
      invariant forall k | k in t && k.owner == owner && k !in rows :: r[k] == ReconcileRow(k, t[k], succeeded)
      decreases rows
    {
      var k :| k in rows;
      var listed := t[k];
      if k.target != "" && !listed.subscribed {
        r := UpdateSubscription(r, k.target, owner, k.target in succeeded);
      }
      rows := rows - {k};
    }
  }
}

=== FILE: registry.dfy ===
/**
 * The in-memory registry `activeUserSessions` (example.ts:312): phone number to
 * the final session's socket. Sockets are handles; `live` records, for every
 * final socket not yet ended or closed, the phone it serves.
 */
module SessionRegistry {
  import opened Wrappers
  import opened Phone

  /** A socket, named by the order in which it was created. */
  type Handle = nat

  datatype Registry = Registry(active: map<PhoneNumber, Handle>, live: map<Handle, PhoneNumber>)

  const Empty: Registry := Registry(map[], map[])

  /** The registry holds exactly the live final sockets, each under its own phone. */
  predicate Valid(g: Registry)
  {
    && (forall p | p in g.active :: g.active[p] in g.live && g.live[g.active[p]] == p)
    && (forall h | h in g.live :: g.live[h] in g.active && g.active[g.live[h]] == h)
  }

  /** In a valid registry no phone has two live final sockets. */
  lemma OneLivePerPhone(g: Registry, h1: Handle, h2: Handle)
    requires Valid(g)
    requires h1 in g.live && h2 in g.live && g.live[h1] == g.live[h2]
    ensures h1 == h2
  {
  }

  /** End the phone's socket, if any, and forget it (example.ts:556-561). */
  function Drop(g: Registry, p: PhoneNumber): (r: Registry)
    ensures r.active == g.active - {p}
    ensures p in g.active ==> r.live == g.live - {g.active[p]}
    ensures p !in g.active ==> r.live == g.live
    ensures Valid(g) ==> Valid(r)
  {
    if p in g.active then Registry(g.active - {p}, g.live - {g.active[p]}) else g
  }

  /** The registry after an install, and the socket the install ended, if any. */
  datatype Installed = Installed(registry: Registry, ended: Option<Handle>)

  /**
   * Install a new final socket for `p` (example.ts:372-377): the socket already
   * registered for `p`, if any, is ended first, then `h` takes its place.
   */
  function Install(g: Registry, p: PhoneNumber, h: Handle): (r: Installed)
    ensures r.registry.active == g.active[p := h]
    ensures r.ended == if p in g.active then Some(g.active[p]) else None
    ensures h in r.registry.live && r.registry.live[h] == p
    ensures Valid(g) && r.ended.Some? && r.ended.value != h ==> r.ended.value !in r.registry.live
    ensures Valid(g) && h !in g.live ==> Valid(r.registry)
  {
    var ended := if p in g.active then Some(g.active[p]) else None;
    var g1 := Drop(g, p);
    Installed(Registry(g1.active[p := h], g1.live[h := p]), ended)
  }

  /**
   * The final socket `h` has closed (example.ts:395): it is no longer live, and
   * the entry of its phone is deleted, whichever socket that entry names.
   */
  function Closed(g: Registry, h: Handle): (r: Registry)
    requires h in g.live
    ensures r.active == g.active - {g.live[h]}
    ensures h !in r.live && forall h' | h' in g.live && h' != h :: h' in r.live && r.live[h'] == g.live[h']
    ensures Valid(g) ==> Valid(r)
  {
    Registry(g.active - {g.live[h]}, g.live - {h})
  }
}

=== FILE: startup.dfy ===
/**
 * Startup recovery in `main` (example.ts:760-791): every stored user that was
 * logged in is either reconnected from its registered credentials or marked
 * logged out. The process starts with an empty session registry.
 */
module Startup {
  import opened Wrappers
  import opened Phone
  import opened Users
  import opened Monitors
  import opened SessionRegistry
  import opened Orchestrator

  /** A row `main` tries to reconnect: it has a number and is marked logged in (example.ts:765). */
  predicate WasLoggedIn(u: User)
  {
    Filled(u.phone) && u.loggedIn
  }

  /**
   * The row's session comes back: its credential directory exists and holds
   * registered credentials, and starting the session does not throw (`failing`
   * holds the numbers for which it throws).
   */
  predicate Reconnects(u: User, creds: CredentialStore, failing: set<PhoneNumber>)
  {
    WasLoggedIn(u) && Normalize(u.phone.value) in creds && creds[Normalize(u.phone.value)]
    && Normalize(u.phone.value) !in failing
  }

  /** The row after recovery, given the row before. */
  predicate Recovered(before: User, after: User, creds: CredentialStore, failing: set<PhoneNumber>)
  {
    if !WasLoggedIn(before) || Reconnects(before, creds, failing) then after == before
    else after == before.(loggedIn := false, jid := None)
  }

  /** The numbers of the rows in `ds` whose sessions come back. */
  function ReconnectedPhones(users: UserTable, ds: set<DeviceId>, creds: CredentialStore, failing: set<PhoneNumber>): set<PhoneNumber>
  {
    set d | d in ds && d in users && Reconnects(users[d], creds, failing) :: users[d].phone.value
  }

  /** A row not yet processed shares its number with no reconnected row (the numbers are unique). */
  lemma PendingPhoneNotReconnected(users: UserTable, done: set<DeviceId>, d: DeviceId, creds: CredentialStore, failing: set<PhoneNumber>)
    requires PhonesUnique(users)
    requires d in users && d !in done && users[d].phone.Some?
    ensures users[d].phone.value !in ReconnectedPhones(users, done, creds, failing)
  {
    forall d' | d' in done && d' in users && Reconnects(users[d'], creds, failing)
      ensures users[d'].phone.value != users[d].phone.value
    {
      assert d' != d;
    }
  }

  /** One iteration of the startup loop for the stored row `u` (example.ts:765-790). */
  function RecoverUser(w: World, u: User, failing: set<PhoneNumber>): World
  {
    if WasLoggedIn(u) then
      var p := Normalize(u.phone.value);
      if p !in w.creds then w.(users := UpdateLoginStatus(w.users, u.phone.value, false, None))
      else if p in failing then w.(users := SignOut(w.users, u.phone.value))
      else VerifyAndEstablish(w, u.phone.value)
    else
      w
  }

  /** How the state `r` after recovering the row `d` relates to the state `w` before. */
  predicate RowRecovered(w: World, d: DeviceId, failing: set<PhoneNumber>, r: World)
    requires d in w.users
  {
    && Inv(r)
    && r.monitors == w.monitors && r.creds == w.creds && r.pairings == w.pairings
    && (Reconnects(w.users[d], w.creds, failing) ==>
          r.users == w.users && r.sessions.active == w.sessions.active[w.users[d].phone.value := w.next])
    && (!Reconnects(w.users[d], w.creds, failing) ==> r.sessions == w.sessions)
    && (WasLoggedIn(w.users[d]) && !Reconnects(w.users[d], w.creds, failing) ==>
          r.users == w.users[d := w.users[d].(loggedIn := false, jid := None)])
    && (!WasLoggedIn(w.users[d]) ==> r == w)
  }

  /** What recovering one row does, when no session is registered for its number yet. */
  lemma RecoverUserEffect(w: World, d: DeviceId, failing: set<PhoneNumber>)
    requires Inv(w) && d in w.users
    requires w.users[d].phone.Some? ==> w.users[d].phone.value !in w.sessions.active
    ensures RowRecovered(w, d, failing, RecoverUser(w, w.users[d], failing))
  {
    var u := w.users[d];
    var r := RecoverUser(w, u, failing);
    if WasLoggedIn(u) {
      var p := u.phone.value;
      DigitsAreFixed(p);
      UpdateRewritesOneRow(w.users, d, false, None);
      if p !in w.creds {
        UpdateKeepsValid(w.users, p, false, None);
      } else if p in failing {
        assert LoggedInByPhone(w.users, p);
        UpdateKeepsValid(w.users, p, false, None);
      } else {
        VerifyKeepsInv(w, p);
      }
    }
  }

  /** Processing one more row adds its number to the reconnected ones exactly when it reconnects. */
  lemma ReconnectedPhonesAdd(users: UserTable, done: set<DeviceId>, d: DeviceId, creds: CredentialStore, failing: set<PhoneNumber>)
    requires d in users
    ensures ReconnectedPhones(users, done + {d}, creds, failing)
         == ReconnectedPhones(users, done, creds, failing)
            + (if Reconnects(users[d], creds, failing) then {users[d].phone.value} else {})
  {
  }

  /** The state of the startup loop after the rows outside `todo` have been processed. */
  predicate Progress(users: UserTable, monitors: MonitorTable, creds: CredentialStore, failing: set<PhoneNumber>,
                     w: World, todo: set<DeviceId>)
  {
    && todo <= users.Keys
    && Inv(w)
    && w.monitors == monitors && w.creds == creds && w.pairings == map[]
    && w.users.Keys == users.Keys
    && (forall d | d in todo :: w.users[d] == users[d])
    && (forall d | d in users && d !in todo :: Recovered(users[d], w.users[d], creds, failing))
    && w.sessions.active.Keys == ReconnectedPhones(users, users.Keys - todo, creds, failing)
  }

  /** One iteration of the startup loop keeps its progress description. */
  lemma StartupStep(users: UserTable, monitors: MonitorTable, creds: CredentialStore, failing: set<PhoneNumber>,
                    w: World, todo: set<DeviceId>, d: DeviceId)
    requires Users.Valid(users)
    requires Progress(users, monitors, creds, failing, w, todo) && d in todo
    ensures Progress(users, monitors, creds, failing, RecoverUser(w, users[d], failing), todo - {d})
  {
    if users[d].phone.Some? {
      PendingPhoneNotReconnected(users, users.Keys - todo, d, creds, failing);
    }
    RecoverUserEffect(w, d, failing);
    ProgressStep(users, monitors, creds, failing, w, todo, d, RecoverUser(w, users[d], failing));
  }

  /** The same step, for any state `r` related to `w` as recovering the row `d` relates them. */
  lemma ProgressStep(users: UserTable, monitors: MonitorTable, creds: CredentialStore, failing: set<PhoneNumber>,
                     w: World, todo: set<DeviceId>, d: DeviceId, r: World)
    requires Progress(users, monitors, creds, failing, w, todo) && d in todo
    requires RowRecovered(w, d, failing, r)
    ensures Progress(users, monitors, creds, failing, r, todo - {d})
  {
    var done := users.Keys - todo;
    assert users.Keys - (todo - {d}) == done + {d};
    ReconnectedPhonesAdd(users, done, d, creds, failing);
    forall d' | d' in users && d' !in todo - {d}
      ensures Recovered(users[d'], r.users[d'], creds, failing)
    {
      if d' != d {
        assert r.users[d'] == w.users[d'];
      }
    }
  }

  /**
   * The startup loop (example.ts:761-791), over the stored rows in whatever
   * order the store lists them: rows that were logged in are reconnected when
   * their credentials allow it and marked logged out otherwise; other rows are
   * left alone, and the registry ends up holding exactly the reconnected numbers.
   */
  method Startup(users: UserTable, monitors: MonitorTable, creds: CredentialStore, failing: set<PhoneNumber>)
    returns (w: World)
    requires Users.Valid(users)
    ensures Inv(w)
    ensures w.monitors == monitors && w.creds == creds && w.pairings == map[]
    ensures w.users.Keys == users.Keys
    ensures forall d | d in users :: Recovered(users[d], w.users[d], creds, failing)
    ensures w.sessions.active.Keys == ReconnectedPhones(users, users.Keys, creds, failing)
  {
    w := World(users, monitors, SessionRegistry.Empty, creds, map[], 0);
    var todo := users.Keys;
    assert ReconnectedPhones(users, users.Keys - todo, creds, failing) == {};
    while todo != {}
      invariant Progress(users, monitors, creds, failing, w, todo)
      decreases todo
    {
      var d :| d in todo;
      StartupStep(users, monitors, creds, failing, w, todo, d);
      w := RecoverUser(w, users[d], failing);
      todo := todo - {d};
    }
  }
}

=== FILE: users.dfy ===
/**
 * The `users` table (example.ts:108-116) and the two `DatabaseService`
 * operations that write it: `upsertUserForPairing` and `updateUserLoginStatus`.
 * The table is a map keyed by `deviceId` (its UNIQUE NOT NULL column); the
 * UNIQUE constraint on `phoneNumber` is the invariant `PhonesUnique`.
 */
module Users {
  import opened Wrappers
  import opened Phone
  import opened Jids

  /** The opaque device identity a client pairs under. */
  type DeviceId = string

  /** One row of `users`; timestamps are not modelled. */
  datatype User = User(phone: Option<PhoneNumber>, loggedIn: bool, jid: Option<Jid>)

  type UserTable = map<DeviceId, User>

  /** The UNIQUE constraint on `phoneNumber`: two rows never share a non-null number. */
  predicate PhonesUnique(t: UserTable)
  {
    forall d1, d2 | d1 in t && d2 in t && d1 != d2 && t[d1].phone.Some? :: t[d1].phone != t[d2].phone
  }

  /** Stored numbers are always normalised. */
  predicate PhonesClean(t: UserTable)
  {
    forall d | d in t && t[d].phone.Some? :: AllDigits(t[d].phone.value)
  }

  /** `lastKnownJid` is set, and not empty, exactly while the row is logged in. */
  predicate JidTracksLogin(t: UserTable)
  {
    forall d | d in t :: if t[d].loggedIn then Filled(t[d].jid) else t[d].jid == None
  }

  /** The invariant every write of the server keeps. */
  predicate Valid(t: UserTable)
  {
    PhonesUnique(t) && PhonesClean(t) && JidTracksLogin(t)
  }

  /** Some row other than `device` already holds `phone` (example.ts:147-150). */
  predicate HeldElsewhere(t: UserTable, device: DeviceId, phone: PhoneNumber)
  {
    exists d | d in t :: d != device && t[d].phone == Some(phone)
  }

  /** What `upsertUserForPairing` returns. */
  datatype Paired = Paired(table: UserTable, user: User, oldPhone: Option<PhoneNumber>)

  /** The number is already linked to a different device (example.ts:152). */
  datatype PairingConflict = PhoneLinkedToOtherDevice

  /**
   * `upsertUserForPairing(deviceId, phoneNumberToPair)` (example.ts:142-177):
   * refuse a number bound to another device; otherwise rebind or insert the
   * device's row, logged out, and report the number it was switched away from.
   */
  function UpsertForPairing(t: UserTable, device: DeviceId, phoneToPair: string): (r: Result<Paired, PairingConflict>)
    ensures r.Err? <==> HeldElsewhere(t, device, Normalize(phoneToPair))
    ensures r.Ok? ==> r.value.table.Keys == t.Keys + {device}
    ensures r.Ok? ==> r.value.table[device] == r.value.user == User(Some(Normalize(phoneToPair)), false, None)
    ensures r.Ok? ==> forall d | d in t && d != device :: r.value.table[d] == t[d]
    ensures r.Ok? ==> (r.value.oldPhone.Some? <==>
                         device in t && t[device].phone.Some? && t[device].phone != Some(Normalize(phoneToPair)))
    ensures r.Ok? && r.value.oldPhone.Some? ==> r.value.oldPhone == t[device].phone
  {
    var clean := Normalize(phoneToPair);
    if HeldElsewhere(t, device, clean) then
      Err(PhoneLinkedToOtherDevice)
    else
      var user := User(Some(clean), false, None);
      var previous := if device in t then t[device].phone else None;
      Ok(Paired(t[device := user], user, if previous != Some(clean) then previous else None))
  }

  /** A pairing upsert keeps the table valid: in particular it never duplicates a number. */
  lemma UpsertKeepsValid(t: UserTable, device: DeviceId, phoneToPair: string)
    requires Valid(t)
    ensures UpsertForPairing(t, device, phoneToPair).Ok? ==> Valid(UpsertForPairing(t, device, phoneToPair).value.table)
  {
    var r := UpsertForPairing(t, device, phoneToPair);
    if r.Ok? {
      var t' := r.value.table;
      forall d1, d2 | d1 in t' && d2 in t' && d1 != d2 && t'[d1].phone.Some?
        ensures t'[d1].phone != t'[d2].phone
      {
        if d1 == device {
          assert !HeldElsewhere(t, device, Normalize(phoneToPair));
        } else if d2 == device {
          assert !HeldElsewhere(t, device, Normalize(phoneToPair));
          assert t'[d1] == t[d1];
        }
      }
    }
  }

  /**
   * `updateUserLoginStatus(phoneNumber, isLoggedIn, jid)` (example.ts:179-197):
   * `UPDATE users SET isLoggedIn, lastKnownJid = jid || null WHERE phoneNumber = clean`.
   */
  function UpdateLoginStatus(t: UserTable, phone: string, loggedIn: bool, jid: Option<Jid>): (r: UserTable)
    ensures r.Keys == t.Keys
    ensures forall d | d in t && t[d].phone != Some(Normalize(phone)) :: r[d] == t[d]
    ensures forall d | d in t && t[d].phone == Some(Normalize(phone)) ::
              r[d].phone == t[d].phone && r[d].loggedIn == loggedIn && r[d].jid == OrNull(jid)
    ensures (forall d | d in t :: t[d].phone != Some(Normalize(phone))) ==> r == t
  {
    var clean := Normalize(phone);
    var r := map d | d in t :: if t[d].phone == Some(clean) then t[d].(loggedIn := loggedIn, jid := OrNull(jid)) else t[d];
    assert (forall d | d in t :: t[d].phone != Some(clean)) ==> r == t by {
      if forall d | d in t :: t[d].phone != Some(clean) {
        assert forall d | d in t :: r[d] == t[d];
      }
    }
    r
  }

  /** Under the uniqueness invariant a status update rewrites exactly the row that holds the number. */
  lemma UpdateRewritesOneRow(t: UserTable, d: DeviceId, loggedIn: bool, jid: Option<Jid>)
    requires PhonesUnique(t) && PhonesClean(t)
    requires d in t && t[d].phone.Some?
    ensures UpdateLoginStatus(t, t[d].phone.value, loggedIn, jid) == t[d := t[d].(loggedIn := loggedIn, jid := OrNull(jid))]
  {
    var p := t[d].phone.value;
    DigitsAreFixed(p);
    var r := UpdateLoginStatus(t, p, loggedIn, jid);
    var e := t[d := t[d].(loggedIn := loggedIn, jid := OrNull(jid))];
    assert r.Keys == e.Keys;
    forall d' | d' in r ensures r[d'] == e[d'] {
      if d' != d {
        assert t[d'].phone != Some(p);
      }
    }
  }

  /** A status update keeps the table valid when the flag and the identity agree. */
  lemma UpdateKeepsValid(t: UserTable, phone: string, loggedIn: bool, jid: Option<Jid>)
    requires Valid(t)
    requires loggedIn == Filled(jid)
    ensures Valid(UpdateLoginStatus(t, phone, loggedIn, jid))
  {
    var r := UpdateLoginStatus(t, phone, loggedIn, jid);
    forall d1, d2 | d1 in r && d2 in r && d1 != d2 && r[d1].phone.Some?
      ensures r[d1].phone != r[d2].phone
    {
      assert r[d1].phone == t[d1].phone && r[d2].phone == t[d2].phone;
    }
    assert PhonesClean(r) by {
      forall d | d in r && r[d].phone.Some? ensures AllDigits(r[d].phone.value) {
        assert r[d].phone == t[d].phone;
      }
    }
  }

  /** Repeating a status update changes nothing more. */
  lemma UpdateIdempotent(t: UserTable, phone: string, loggedIn: bool, jid: Option<Jid>)
    ensures UpdateLoginStatus(UpdateLoginStatus(t, phone, loggedIn, jid), phone, loggedIn, jid)
         == UpdateLoginStatus(t, phone, loggedIn, jid)
  {
    var once := UpdateLoginStatus(t, phone, loggedIn, jid);
    var twice := UpdateLoginStatus(once, phone, loggedIn, jid);
    forall d | d in twice ensures twice[d] == once[d] {
      if t[d].phone == Some(Normalize(phone)) {
        assert once[d].phone == t[d].phone;
      }
    }
  }

  /** The row holding `phone` is logged in (example.ts:398-399, 777-778). */
  predicate LoggedInByPhone(t: UserTable, phone: string)
  {
    exists d | d in t :: t[d].phone == Some(Normalize(phone)) && t[d].loggedIn
  }

  /** Clear the login of the row holding `phone`, if it is logged in (example.ts:398-401). */
  function SignOut(t: UserTable, phone: string): (r: UserTable)
    ensures r.Keys == t.Keys
    ensures forall d | d in t && t[d].phone != Some(Normalize(phone)) :: r[d] == t[d]
    ensures JidTracksLogin(t) ==> forall d | d in t && t[d].phone == Some(Normalize(phone)) ::
              r[d] == t[d].(loggedIn := false, jid := None)
  {
    if LoggedInByPhone(t, phone) then UpdateLoginStatus(t, phone, false, None) else t
  }

  /** Signing out keeps the table valid. */
  lemma SignOutKeepsValid(t: UserTable, phone: string)
    requires Valid(t)
    ensures Valid(SignOut(t, phone))
  {
    if LoggedInByPhone(t, phone) {
      UpdateKeepsValid(t, phone, false, None);
    }
  }
}

=== FILE: wrappers.dfy ===
/** Nullable values and error returns, as the server's JavaScript uses them. */
module Wrappers {

  /** A nullable (or optional) value: `null`/`undefined` is `None`. */
  datatype Option<+T> = None | Some(value: T)

  /** A call that either returns a value or throws an error. */
  datatype Result<+T, +E> = Ok(value: T) | Err(error: E)

  /** JavaScript truthiness of a nullable string: present and not empty. */
  predicate Filled(s: Option<string>)
  {
    s.Some? && s.value != ""
  }

  /** `s || null` for a nullable string: empty strings become null. */
  function OrNull(s: Option<string>): (r: Option<string>)
    ensures r.Some? ==> Filled(r)
    ensures Filled(s) ==> r == s
  {
    if Filled(s) then s else None
  }
}
